=== FILE: README.md ===
# luahs compile and scan, modelled in Dafny

luahs is a Lua binding to the Hyperscan regular-expression engine. This
project models the part of the binding that turns Lua argument tables into
engine calls and engine results back into Lua values, all of it in
`src/luahs/functions.c`:

- `toFlags`, `toMode` and `toPlatform` decode the `flags`, `mode` and
  `platform` arguments. Flags are an integer or a table of integers ORed
  together.
- `getIntegerField` and `compileMulti` normalise the `expressions` table of
  a batch compile. They build the `expressions`, `ids` and `flags` arrays and
  the sparse `hs_expr_ext_t` array, and pick `hs_compile_ext_multi` or
  `hs_compile_multi`.
- `compile` dispatches. `mode` is checked first, then `platform`; then
  `expression` wins over `expressions`; with neither, the call fails with
  "Specify 'expression' or 'expressions'".
- `throwCompileError` builds the compile-failure message and releases the
  engine's diagnostic.
- `luahs_match_event_handler` and `scan` collect match records in callback
  order.

The modules follow the program's layers:

| module | contents |
|---|---|
| `Wrappers` | `Option` and `Result` |
| `Numerals` | the C integer conversions the binding performs implicitly, and decimal text |
| `Errors` | the errors raised, split into usage errors and engine-side errors |
| `LuaValues` | Lua values, `lua_getfield`, `luaL_checkinteger`, `luaL_checkstring` |
| `Engine` | the engine's data types (`hs_platform_info_t`, `hs_expr_ext_t`, compile and scan outcomes) and the call descriptor handed to the engine |
| `Flags` | `toFlags`, `toMode`, `toPlatform` |
| `Batch` | `getIntegerField`, the element loop of `compileMulti` and the arrays it builds |
| `Compiler` | `compile`'s dispatch, the engine-call trace, `throwCompileError`'s message |
| `Matching` | the match callback and `scan` |

A raised Lua error is an `Err` of `Errors.Error`. The engine is a parameter:
- `Compiler.Compile` takes the engine's compiler as a function from call descriptor to outcome.
- `Matching.Scan` takes the engine's scanner as a function from buffer to the reported matches and the final status.

Integer widths follow the C declarations:
- `toFlags` returns a C `int`. A `lua_Integer` stored into it keeps its low 32 bits (`bv32`).
- `tune` and the engine's `flags` and `ids` are `unsigned int` (same bits).
- `cpu_features`, `reserved1`, `reserved2` and the ext fields are `unsigned long long` filled from an `int`, so they are sign-extended (`Numerals.Widen`).
- The match offsets are `unsigned long long` pushed as a signed `lua_Integer` (`Numerals.ToLuaInteger`).

The Hyperscan constants used are:
- `HS_SUCCESS = 0`.
- `HS_EXT_FLAG_MIN_OFFSET = 1`, `HS_EXT_FLAG_MAX_OFFSET = 2` and `HS_EXT_FLAG_MIN_LENGTH = 4`.

Two consequences of the code are worth stating:
- A failed compile, on either route, is always raised through `throwCompileError` (`functions.c:433-435`). There is no separate generic-error path.
- The platform's 64-bit fields hold the sign-extended `int` that `toFlags` returns.

Numbers follow Lua 5.3 and later: a number argument is a 64-bit `lua_Integer`.

## Model

| member | source | states |
|---|---|---|
| `Numerals.Low32Bits` | src/luahs/functions.c:117-124 | storing an integer into a C `int` or `unsigned int` gives the 32-bit pattern whose unsigned value is congruent to it modulo 2^32; a pattern stores as itself, and adding 2^32 changes nothing |
| `Numerals.Widen` | src/luahs/functions.c:165-175 | an `int` assigned to an `unsigned long long` keeps its low 32 bits and copies bit 31 into the upper half |
| `Numerals.ToLuaInteger` | src/luahs/functions.c:55-57 | an `unsigned long long` offset pushed as a `lua_Integer` lies in the signed 64-bit range; offsets below 2^63 are unchanged and larger ones lose 2^64 |
| `Numerals.ToLuaIntegerBits` | src/luahs/functions.c:55-57 | the pushed `lua_Integer` keeps the offset's 64 bits (congruent modulo 2^64), and it is the only signed 64-bit value that does |
| `Numerals.DecimalRoundTrip` | src/luahs/functions.c:274-278 | the decimal text Lua gives a number reads back as the same integer |
| `LuaValues.CheckInteger` | src/luahs/functions.c:117-126 | `luaL_checkinteger` accepts exactly numbers and numeric strings; a number gives itself and a string the integer its decimal numeral denotes; otherwise it raises "number expected" naming the type |
| `LuaValues.CheckString` | src/luahs/functions.c:273-278 | `luaL_checkstring` accepts exactly strings and numbers; a string is returned unchanged and a number as its decimal text; otherwise it raises "string expected" |
| `LuaValues.CString` | src/luahs/functions.c:274-278 | the `const char*` handed to the engine denotes the string's prefix before its first NUL: a prefix, NUL-free, and stopped only by a NUL |
| `LuaValues.CStringUnique` | src/luahs/functions.c:274-278 | those three properties determine the C text uniquely |
| `LuaValues.CStringWhole` | src/luahs/functions.c:274-278 | a string reaches the engine unchanged exactly when it holds no NUL |
| `LuaValues.CheckStringThenInteger` | src/luahs/functions.c:273-278 | a number converted to an expression string converts back to the same integer |
| `Flags.OrAllBits` | src/luahs/functions.c:119-125 | a bit is set in an OR fold exactly when it is set in the start value or in one of the folded masks |
| `Flags.OrFrom` | src/luahs/functions.c:119-125 | the table loop succeeds exactly when every element is an integer, its value is the OR of the element masks, and the first non-integer element decides the error |
| `Flags.ToFlags` | src/luahs/functions.c:112-135 | nil is 0, a number is its low 32 bits, a table succeeds iff all its elements are integers, and any other type raises "Bad type of '<name>'"; every error is an argument error |
| `Flags.FlagsTableBits` | src/luahs/functions.c:117-125 | a bit is set in a table's flags exactly when some element's mask has it |
| `Flags.SingletonFlags` | src/luahs/functions.c:114-125 | a one-element table of flags means the same as the bare number |
| `Errors.Message` | src/luahs/functions.c:130-431 | the binding's own wrong-type errors read "Bad type of …", the missing-expression error reads "Specify 'expression' or 'expressions'", and only the auxiliary library's and the engine's errors have no text here |
| `Flags.TypeErrorMessages` | src/luahs/functions.c:127-181 | a flags, mode or platform argument of the wrong type raises "Bad type of '<name>': <type>" with the argument's name and the value's type |
| `Batch.ElementErrorMessages` | src/luahs/functions.c:220-226 | a wrongly typed element field raises "Bad type of arg1.expressions[i].<field>: <type>", and an element that is neither a string nor a table raises "Bad type of arg1.expressions[i].expression: <type>" (functions.c:318-322) |
| `Flags.ToMode` | src/luahs/functions.c:137-150 | `mode` must be a number, whose low 32 bits are the mode; anything else, nil included, raises "Bad type of 'mode'" |
| `Flags.ToPlatform` | src/luahs/functions.c:152-185 | nil gives NULL; a table succeeds exactly when its four fields are valid flags, checked in the order tune, cpu_features, reserved1, reserved2; `tune` gets the 32-bit mask and the others the sign-extended one; other types raise "Bad type of 'platform'" |
| `Flags.EmptyPlatformIsZero` | src/luahs/functions.c:159-175 | a platform table with none of the four fields is the all-zero platform |
| `Flags.PlatformFieldsIndependent` | src/luahs/functions.c:161-175 | changing `tune` changes only the platform's `tune` |
| `Batch.GetIntegerField` | src/luahs/functions.c:207-230 | an absent field is not present; a number is present with its low 32 bits; a table is accepted only by the flags filter, with its error passed through; any other type raises "Bad type of arg1.expressions[i].<field>" |
| `Batch.MakeExt` | src/luahs/functions.c:295-316 | a constraint record exists exactly when some constraint is given; its flag word has exactly the bits of the constraints given; the values are sign-extended |
| `Batch.ParseElement` | src/luahs/functions.c:271-325 | a string element is an expression with no id, flags or constraints; an element that is neither a string nor a table raises "Bad type of arg1.expressions[i].expression"; every error is an argument error |
| `Batch.ElementFields` | src/luahs/functions.c:275-294 | the expression of a table element is its `expression` field as a string; a normalised element has an id or flags exactly when its table supplies them, the id being the field's low 32 bits and the flags its `toFlags` mask |
| `Batch.ElementExt` | src/luahs/functions.c:295-316 | a normalised element has a constraint record exactly when its table gives a constraint; the record's flag word names exactly the constraints given, and each given value is the field's low 32 bits sign-extended |
| `Batch.CombineFirstError` | src/luahs/functions.c:275-306 | six checks run in sequence succeed iff none fails, and otherwise the first failure is the error |
| `Batch.ElementCheckOrder` | src/luahs/functions.c:275-306 | an element table is accepted iff none of its six checks fails, and otherwise the first failing check, in the order expression, id, flags, min_offset, max_offset, min_length, decides the error |
| `Batch.CollectAll` | src/luahs/functions.c:270-326 | the element loop succeeds iff every element does, normalises each element in place, and the first failing element decides the error |
| `Batch.CollectAllFirstFailure` | src/luahs/functions.c:270-326 | if all elements before `i` are fine and element `i` fails, the loop fails with element `i`'s error |
| `Batch.CollectAllSnoc` | src/luahs/functions.c:270-326 | one more successful element extends the normalised prefix by exactly that element |
| `Batch.SlotsSnoc` | src/luahs/functions.c:280-316 | an element writes only its own slot of the ids, flags and ext arrays |
| `Batch.AnySnoc` | src/luahs/functions.c:283-310 | an array pointer is switched on after an element exactly when it was already on or that element supplies the field |
| `Batch.AssembleMulti` | src/luahs/functions.c:239-357 | a non-table `expressions` raises "table expected"; every error is an argument error; a batch request keeps mode and platform unchanged |
| `Batch.BatchOutcome` | src/luahs/functions.c:270-326 | the batch succeeds iff every element does, the first failing element decides the error, and the request carries one expression per element, in order, each the element's text up to its first NUL |
| `Batch.BatchIds` | src/luahs/functions.c:245-288 | the ids array is NULL iff no element supplies a numeric `id`; otherwise it has one entry per element, that element's id or 0 |
| `Batch.BatchFlags` | src/luahs/functions.c:250-295 | the flags array is NULL iff no element supplies `flags`; otherwise it has one entry per element, that element's mask or 0 |
| `Batch.BatchExt` | src/luahs/functions.c:255-350 | the ext array is NULL iff no element gives a constraint; otherwise entry i is non-NULL iff element i gives one, with exactly the matching flag bits; the extended entry point is used iff the ext array is passed |
| `Batch.BatchExtValues` | src/luahs/functions.c:295-316 | each constraint an element gives reaches its ext record as the field's low 32 bits, sign-extended |
| `Batch.BatchWellFormed` | src/luahs/functions.c:239-357 | every batch request satisfies the engine's array-shape contract |
| `Batch.ElementLoop` | src/luahs/functions.c:245-357 | the loop as written, with zero-filled scratch arrays and pointers switched on at first use, builds exactly the request made from the normalised elements, or raises the first element's error |
| `Batch.CompileMulti` | src/luahs/functions.c:232-358 | a non-table `expressions` raises "table expected"; otherwise the loop run with the element normalisation builds exactly the batch request `AssembleMulti` describes, or raises its error |
| `Compiler.Dispatch` | src/luahs/functions.c:382-432 | a non-table argument raises "table expected"; `mode` is checked before `platform`; a non-nil `expression` selects the single call with the expression's text up to its first NUL, which is made iff the expression is a string or number and `flags` is valid, the expression's error being raised before the flags' error; otherwise a non-nil `expressions` selects the batch call, with exactly the outcome of normalising `expressions` under the decoded mode and platform; "Specify 'expression' or 'expressions'" is raised exactly when mode and platform are valid and both are nil |
| `Compiler.SingleIgnoresExpressions` | src/luahs/functions.c:400-428 | when `expression` is given, the value of `expressions` makes no difference |
| `Compiler.BatchIgnoresTopLevelFlags` | src/luahs/functions.c:400-428 | on the batch route the top-level `flags` field makes no difference |
| `Compiler.DispatchWellFormed` | src/luahs/functions.c:382-432 | every engine call `compile` makes is well formed |
| `Compiler.CompileErrorText` | src/luahs/functions.c:360-376 | the message starts "Unable to compile expression", followed by " #<index>" when the diagnostic names an expression, and otherwise directly by ": <message>" |
| `Compiler.CompileErrorTextRoundTrip` | src/luahs/functions.c:364-376 | the expression index (or -1 when none is named) and the engine's message can be read back from the compile-failure text |
| `Compiler.CompileErrorTextInjective` | src/luahs/functions.c:364-370 | different attributed diagnostics give different messages |
| `Compiler.Compile` | src/luahs/functions.c:382-437 | a usage error is raised before any engine call; otherwise the engine is called once, a success returns the database, and a rejection releases the diagnostic and then raises its message |
| `Compiler.NoExpressionReachesNoEngine` | src/luahs/functions.c:399-432 | naming neither `expression` nor `expressions` raises the usage error without calling the engine, whatever the engine would do |
| `Compiler.CompileErrorKinds` | src/luahs/functions.c:382-437 | a raised error is a usage error exactly when the engine was never called |
| `Matching.HandleMatch` | src/luahs/functions.c:43-66 | the callback stores the `{id, from, to}` record at key count+1, leaves every other key alone, adds one to the count, and returns 0 so the scan goes on |
| `Matching.CollectedAppend` | src/luahs/functions.c:59-64 | a further match extends the collected list by exactly its record, at the end |
| `Matching.HandleAll` | src/luahs/functions.c:43-66 | delivering the engine's reports to the callback one by one, from an empty table, leaves exactly keys 1..n, and the table read as a sequence is one record per report in order |
| `Matching.Scan` | src/luahs/functions.c:68-94 | a buffer that is not a string or number raises "string expected"; otherwise the result list exists iff the engine returns success, and it holds one record per reported match in callback order; a failure status is raised |

## Left out

- The engine itself (`hs_compile`, `hs_compile_multi`, `hs_compile_ext_multi`, `hs_scan`, `hs_free_compile_error`) is foreign code. It appears as the parameters of `Compiler.Compile` and `Matching.Scan`.
- `free_database`, `database_info`, `database_serialize`, `deserialize`, `expression_info`, `current_platform`, `version` and the scratch functions (`alloc_scratch`, `clone_scratch`, `grow_scratch`, `scratch_size`, `free_scratch`) are thin wrappers around single engine calls, and are not part of this model.
- Userdata and metatables (`createDatabase`, `luaL_checkudata` of the database and scratch arguments of `scan`, `addFunctions`) are Lua object plumbing, and are not modelled.
- Lua stack mechanics (push, pop, stack indices) and memory allocation of the scratch arrays are not modelled; arrays are sequences.
- `Batch.ElementFields`: for an element table whose `expression` is a number, the model hands the engine the number's decimal text. In the binding the string `luaL_checkstring` creates for it is popped at `functions.c:279`, so nothing keeps it alive when the engine reads it (`functions.c:328-346`). A garbage-collection step in between, such as the one the next element's conversion can trigger, may free it. The model assumes the text survives; the single route keeps its string on the stack and is not affected.
- Floating-point Lua numbers are left out: a number value is an integer. `luaL_checkinteger`'s "number has no integer representation" error can still be raised by a numeric string, and the model does not produce it (see `LuaValues.CheckInteger`).
- `LuaValues.CheckInteger`: string-to-integer coercion covers an optional sign followed by decimal digits. It leaves out hexadecimal, surrounding spaces, exponents, fractional numerals with an integral value such as "3.0", and decimal numerals outside the 64-bit range, which Lua reads as floats and `luaL_checkinteger` rejects with "number has no integer representation"; the model accepts them with their exact value. A non-integral numeric string such as "1.5" (a flags-table element, say) raises "number has no integer representation" in the binding; the model raises "number expected" for it instead.
- `Numerals.Low32Bits`: the converse, that the stored pattern's unsigned value is congruent to the integer, is not proved. Relating an int-to-`bv32` conversion back to `int` is beyond the solver's budget, so the lemma states the direction that starts from the pattern.
- `LuaValues.CheckString`: a number is rendered as an integer in decimal (`%lld`); floats are left out.
- Tables are an array part plus string-keyed fields; `compat_rawlen` of a table with holes in its array part is not modelled. Metamethods (`__index` on argument tables) are not modelled.
- The argument-position prefix the Lua auxiliary library adds to `luaL_check*` errors, and the text `errorToString` gives a status code, are not modelled. `Errors.Message` has no text for those errors.
- `Matching.Scan` does not model the uninitialised `flags` argument passed to `hs_scan`, or the order of the userdata argument checks around the buffer check.
- `Batch.MakeExt`: fields whose constraint bit is clear are `None`. In the C record they hold uninitialised `int` values that the engine ignores.

=== FILE: batch.dfy ===
/**
 * Batch assembly for a compile request with `expressions`: each element of
 * the table becomes one pattern, and the per-pattern ids, flags and extended
 * constraints are gathered into the parallel arrays handed to the engine.
 */
module Batch {
  import opened Wrappers
  import opened Numerals
  import opened Errors
  import opened LuaValues
  import opened Engine
  import opened Flags

  /** The conversion getIntegerField applies to a field that is present. */
  datatype Filter = CheckIntegerFilter | FlagsFilter

  function ApplyFilter(filter: Filter, f: Value): Result<bv32, Error> {
    match filter
    case CheckIntegerFilter =>
      var n :- CheckInteger(f);
      Ok(Low32(n))
    case FlagsFilter => ToFlags(f, "flags")
  }

  /**
   * getIntegerField: reads field `name` of an element table. Absent is
   * `None`; a number is present; a table is present only for `flags`; any
   * other value is a usage error naming the field.
   */
  function GetIntegerField(element: Value, name: string, filter: Filter): (r: Result<Option<bv32>, Error>)
    requires element.Table?
    ensures Field(element, name).Nil? ==> r == Ok(None)
    ensures Field(element, name).Num? ==> r == Ok(Some(Low32(Field(element, name).n)))
    ensures Field(element, name).Table? && filter == FlagsFilter ==>
      var flags := ToFlags(Field(element, name), "flags");
      && (r.Ok? <==> flags.Ok?)
      && (r.Ok? ==> r.value == Some(flags.value))
      && (r.Err? ==> r.error == flags.error)
    ensures var f := Field(element, name);
      !f.Nil? && !f.Num? && !(f.Table? && filter == FlagsFilter) ==>
        r == Err(BadElementField(name, TypeName(f)))
  {
    var f := Field(element, name);
    if f.Num? || (filter == FlagsFilter && f.Table?) then
      var x :- ApplyFilter(filter, f);
      Ok(Some(x))
    else if f.Nil? then
      Ok(None)
    else
      Err(BadElementField(name, TypeName(f)))
  }

  /** One element of `expressions` after normalisation, before defaults are applied. */
  datatype PatternSpec = PatternSpec(
    expression: string,
    id: Option<bv32>,
    flags: Option<bv32>,
    ext: Option<ExtRecord>)

  function WidenOption(o: Option<bv32>): Option<bv64> {
    match o
    case Some(b) => Some(Widen(b))
    case None => None
  }

  /**
   * The extended-constraint record of one element: it exists when at least
   * one constraint is given, and its flag bits name exactly the ones given.
   * The `int` locals are widened to the record's `unsigned long long` fields.
   */
  function MakeExt(minOffset: Option<bv32>, maxOffset: Option<bv32>, minLength: Option<bv32>): (r: Option<ExtRecord>)
    ensures r.Some? <==> minOffset.Some? || maxOffset.Some? || minLength.Some?
    ensures r.Some? ==> ExtWellFormed(r.value)
    ensures r.Some? ==>
      && r.value.minOffset == WidenOption(minOffset)
      && r.value.maxOffset == WidenOption(maxOffset)
      && r.value.minLength == WidenOption(minLength)
  {
    var flags: bv64 :=
      (if minOffset.Some? then HS_EXT_FLAG_MIN_OFFSET else 0)
      | (if maxOffset.Some? then HS_EXT_FLAG_MAX_OFFSET else 0)
      | (if minLength.Some? then HS_EXT_FLAG_MIN_LENGTH else 0);
    if flags != 0 then
      Some(ExtRecord(flags, WidenOption(minOffset), WidenOption(maxOffset), WidenOption(minLength)))
    else
      None
  }

  /** Element `v` is a table whose field `name` is a number. */
  predicate Supplies(v: Value, name: string) {
    v.Table? && Field(v, name).Num?
  }

  /** Element `v` is a table whose `flags` field is a number or a table. */
  predicate SuppliesFlags(v: Value) {
    v.Table? && (Field(v, "flags").Num? || Field(v, "flags").Table?)
  }

  /** Element `v` gives at least one extended constraint. */
  predicate HasConstraint(v: Value) {
    Supplies(v, "min_offset") || Supplies(v, "max_offset") || Supplies(v, "min_length")
  }

  /** The error a step raises, if any. */
  function ErrorOf<T>(r: Result<T, Error>): (e: Option<Error>)
    ensures e.Some? <==> r.Err?
  {
    if r.Err? then Some(r.error) else None
  }

  /**
   * The checks on an element table, in the order the binding performs them:
   * `expression`, `id`, `flags`, `min_offset`, `max_offset`, `min_length`.
   */
  function ElementChecks(t: Value): (checks: seq<Option<Error>>)
    requires t.Table?
    ensures |checks| == 6
  {
    [ ErrorOf(CheckString(Field(t, "expression"))),
      ErrorOf(GetIntegerField(t, "id", CheckIntegerFilter)),
      ErrorOf(GetIntegerField(t, "flags", FlagsFilter)),
      ErrorOf(GetIntegerField(t, "min_offset", CheckIntegerFilter)),
      ErrorOf(GetIntegerField(t, "max_offset", CheckIntegerFilter)),
      ErrorOf(GetIntegerField(t, "min_length", CheckIntegerFilter)) ]
  }

  /** Check `k` is the first one of `checks` that fails, with error `err`. */
  lemma FirstFailingCheck(checks: seq<Option<Error>>, k: nat, err: Error)
    requires k < |checks| && checks[k] == Some(err)
    requires forall j | 0 <= j < k :: checks[j].None?
    ensures exists i | 0 <= i < |checks| :: checks[i] == Some(err) && forall j | 0 <= j < i :: checks[j].None?
    ensures !forall i | 0 <= i < |checks| :: checks[i].None?
  {
  }

  /**
   * The reads of an element table, combined in the binding's order: the
   * first one that raises decides the error, and otherwise the pattern is
   * built from the values read.
   */
  function CombineElement(
    expression: Result<string, Error>,
    id: Result<Option<bv32>, Error>,
    flags: Result<Option<bv32>, Error>,
    minOffset: Result<Option<bv32>, Error>,
    maxOffset: Result<Option<bv32>, Error>,
    minLength: Result<Option<bv32>, Error>): Result<PatternSpec, Error>
  {
    var e :- expression;
    var i :- id;
    var f :- flags;
    var lo :- minOffset;
    var hi :- maxOffset;
    var len :- minLength;
    Ok(PatternSpec(e, i, f, MakeExt(lo, hi, len)))
  }

  /** CombineElement succeeds exactly when no read fails, and otherwise reports the first failure. */
  lemma CombineFirstError(
    expression: Result<string, Error>,
    id: Result<Option<bv32>, Error>,
    flags: Result<Option<bv32>, Error>,
    minOffset: Result<Option<bv32>, Error>,
    maxOffset: Result<Option<bv32>, Error>,
    minLength: Result<Option<bv32>, Error>)
    ensures var r := CombineElement(expression, id, flags, minOffset, maxOffset, minLength);
      var checks := [ErrorOf(expression), ErrorOf(id), ErrorOf(flags), ErrorOf(minOffset), ErrorOf(maxOffset), ErrorOf(minLength)];
      && (r.Ok? <==> forall k | 0 <= k < 6 :: checks[k].None?)
      && (r.Err? ==>
          exists k | 0 <= k < 6 :: checks[k] == Some(r.error) && forall j | 0 <= j < k :: checks[j].None?)
  {
    var r := CombineElement(expression, id, flags, minOffset, maxOffset, minLength);
    var checks := [ErrorOf(expression), ErrorOf(id), ErrorOf(flags), ErrorOf(minOffset), ErrorOf(maxOffset), ErrorOf(minLength)];
    if expression.Err? {
      FirstFailingCheck(checks, 0, r.error);
    } else if id.Err? {
      FirstFailingCheck(checks, 1, r.error);
    } else if flags.Err? {
      FirstFailingCheck(checks, 2, r.error);
    } else if minOffset.Err? {
      FirstFailingCheck(checks, 3, r.error);
    } else if maxOffset.Err? {
      FirstFailingCheck(checks, 4, r.error);
    } else if minLength.Err? {
      FirstFailingCheck(checks, 5, r.error);
    }
  }

  /**
   * The body of compileMulti's loop for one element: a string is just an
   * expression; a table must give a string `expression` and may give `id`,
   * `flags` and the three extended constraints; anything else is a usage
   * error.
   */
  function ParseElement(v: Value): (r: Result<PatternSpec, Error>)
    ensures r.Err? ==> r.error.IsArgumentError()
    ensures v.Str? ==> r == Ok(PatternSpec(v.s, None, None, None))
    ensures !v.Str? && !v.Table? ==> r == Err(BadElement(TypeName(v)))
  {
    match v
    case Str(s) => Ok(PatternSpec(s, None, None, None))
    case Table(_, _) =>
      CombineElement(
        CheckString(Field(v, "expression")),
        GetIntegerField(v, "id", CheckIntegerFilter),
        GetIntegerField(v, "flags", FlagsFilter),
        GetIntegerField(v, "min_offset", CheckIntegerFilter),
        GetIntegerField(v, "max_offset", CheckIntegerFilter),
        GetIntegerField(v, "min_length", CheckIntegerFilter))
    case _ => Err(BadElement(TypeName(v)))
  }

  /**
   * The text raised for a wrongly typed element or element field names the
   * field under `arg1.expressions[i]` and the value's Lua type.
   */
  lemma ElementErrorMessages(t: Value, name: string, filter: Filter, v: Value)
    ensures t.Table? && !Field(t, name).Nil? && !Field(t, name).Num? && !(Field(t, name).Table? && filter == FlagsFilter) ==>
      && GetIntegerField(t, name, filter).Err?
      && Message(GetIntegerField(t, name, filter).error)
         == Some("Bad type of arg1.expressions[i]." + name + ": " + TypeName(Field(t, name)))
    ensures !v.Str? && !v.Table? ==>
      ParseElement(v).Err? && Message(ParseElement(v).error) == Some("Bad type of arg1.expressions[i].expression: " + TypeName(v))
  {
  }

  /**
   * What a normalised element holds: the `expression` string of a table,
   * an id exactly when the table gives a numeric `id`, and flags exactly
   * when it gives `flags`, with their values.
   */
  lemma ElementFields(v: Value)
    requires ParseElement(v).Ok?
    ensures var spec := ParseElement(v).value;
      && (v.Table? ==>
          && CheckString(Field(v, "expression")).Ok?
          && spec.expression == CheckString(Field(v, "expression")).value)
      && (spec.id.Some? <==> Supplies(v, "id"))
      && (Supplies(v, "id") ==> spec.id.value == Low32(Field(v, "id").n))
      && (spec.flags.Some? <==> SuppliesFlags(v))
      && (SuppliesFlags(v) ==> ToFlags(Field(v, "flags"), "flags") == Ok(spec.flags.value))
  {
  }

  /**
   * The extended-constraint record of a normalised element: it exists
   * exactly when the table gives a constraint, its flag bits name the
   * constraints given, and each given constraint holds the field's value
   * stored into an `int` and widened to `unsigned long long`.
   */
  lemma ElementExt(v: Value)
    requires ParseElement(v).Ok?
    ensures var spec := ParseElement(v).value;
      && (spec.ext.Some? <==> HasConstraint(v))
      && (spec.ext.Some? ==>
          var e := spec.ext.value;
          && ExtWellFormed(e)
          && (e.minOffset.Some? <==> Supplies(v, "min_offset"))
          && (e.maxOffset.Some? <==> Supplies(v, "max_offset"))
          && (e.minLength.Some? <==> Supplies(v, "min_length"))
          && (Supplies(v, "min_offset") ==> e.minOffset == Some(Widen(Low32(Field(v, "min_offset").n))))
          && (Supplies(v, "max_offset") ==> e.maxOffset == Some(Widen(Low32(Field(v, "max_offset").n))))
          && (Supplies(v, "min_length") ==> e.minLength == Some(Widen(Low32(Field(v, "min_length").n)))))
  {
    if v.Table? {
      var minOffset := GetIntegerField(v, "min_offset", CheckIntegerFilter);
      var maxOffset := GetIntegerField(v, "max_offset", CheckIntegerFilter);
      var minLength := GetIntegerField(v, "min_length", CheckIntegerFilter);
      assert ParseElement(v).value.ext == MakeExt(minOffset.value, maxOffset.value, minLength.value);
    }
  }

  /**
   * An element table is accepted exactly when none of its checks fails, and
   * a rejected one reports the first failing check in the binding's order.
   */
  lemma ElementCheckOrder(v: Value)
    requires v.Table?
    ensures ParseElement(v).Ok? <==> forall k | 0 <= k < 6 :: ElementChecks(v)[k].None?
    ensures ParseElement(v).Err? ==>
      exists k | 0 <= k < 6 ::
        && ElementChecks(v)[k] == Some(ParseElement(v).error)
        && forall j | 0 <= j < k :: ElementChecks(v)[j].None?
  {
    var e := CheckString(Field(v, "expression"));
    var id := GetIntegerField(v, "id", CheckIntegerFilter);
    var flags := GetIntegerField(v, "flags", FlagsFilter);
    var minOffset := GetIntegerField(v, "min_offset", CheckIntegerFilter);
    var maxOffset := GetIntegerField(v, "max_offset", CheckIntegerFilter);
    var minLength := GetIntegerField(v, "min_length", CheckIntegerFilter);
    assert ParseElement(v) == CombineElement(e, id, flags, minOffset, maxOffset, minLength);
    assert ElementChecks(v) == [ErrorOf(e), ErrorOf(id), ErrorOf(flags), ErrorOf(minOffset), ErrorOf(maxOffset), ErrorOf(minLength)];
    CombineFirstError(e, id, flags, minOffset, maxOffset, minLength);
  }

  /**
   * The element loop for any per-element normalisation `parse`: all elements
   * in order, the first element that fails deciding the error.
   */
  function CollectAll(items: seq<Value>, parse: Value -> Result<PatternSpec, Error>): (r: Result<seq<PatternSpec>, Error>)
    ensures r.Ok? <==> forall i | 0 <= i < |items| :: parse(items[i]).Ok?
    ensures r.Ok? ==> |r.value| == |items|
    ensures r.Ok? ==> forall i | 0 <= i < |items| :: parse(items[i]) == Ok(r.value[i])
    ensures r.Err? ==>
      exists i | 0 <= i < |items| ::
        && parse(items[i]) == Err(r.error)
        && forall j | 0 <= j < i :: parse(items[j]).Ok?
    decreases |items|
  {
    if |items| == 0 then Ok([])
    else
      var front := items[..|items| - 1];
      assert forall i | 0 <= i < |front| :: front[i] == items[i];
      var init := CollectAll(front, parse);
      if init.Err? then
        assert exists i | 0 <= i < |items| ::
          && parse(items[i]) == Err(init.error)
          && forall j | 0 <= j < i :: parse(items[j]).Ok?
        by {
          var k :| 0 <= k < |front| && parse(front[k]) == Err(init.error)
            && forall j | 0 <= j < k :: parse(front[j]).Ok?;
          assert parse(items[k]) == Err(init.error);
        }
        Err(init.error)
      else
        var last := parse(items[|items| - 1]);
        if last.Err? then Err(last.error)
        else
          var specs := init.value + [last.value];
          assert forall i | 0 <= i < |front| :: specs[i] == init.value[i];
          Ok(specs)
  }

  /**
   * compileMulti's element loop: all elements in order; the first element
   * that fails decides the error.
   */
  function ParseElements(items: seq<Value>): Result<seq<PatternSpec>, Error> {
    CollectAll(items, ParseElement)
  }

  /** If elements before `i` are fine and element `i` fails, the loop fails with its error. */
  lemma CollectAllFirstFailure(items: seq<Value>, parse: Value -> Result<PatternSpec, Error>, i: nat)
    requires i < |items|
    requires CollectAll(items[..i], parse).Ok?
    requires parse(items[i]).Err?
    ensures CollectAll(items, parse) == Err(parse(items[i]).error)
  {
    assert forall j | 0 <= j < i :: items[..i][j] == items[j];
    var r := CollectAll(items, parse);
    assert r.Err?;
    var k :| 0 <= k < |items| && parse(items[k]) == Err(r.error)
      && forall j | 0 <= j < k :: parse(items[j]).Ok?;
    assert k == i;
  }

  /** Normalising one more element extends the normalised prefix by that element. */
  lemma CollectAllSnoc(items: seq<Value>, parse: Value -> Result<PatternSpec, Error>, i: nat)
    requires i < |items|
    requires CollectAll(items[..i], parse).Ok? && parse(items[i]).Ok?
    ensures CollectAll(items[..i + 1], parse) == Ok(CollectAll(items[..i], parse).value + [parse(items[i]).value])
  {
    var longer := items[..i + 1];
    assert longer[..i] == items[..i];
    assert longer[i] == items[i];
  }

  /** The expressions the engine reads, in order: each pattern's text up to its first NUL. */
  function Expressions(specs: seq<PatternSpec>): (es: seq<string>)
    ensures |es| == |specs|
  {
    seq(|specs|, j requires 0 <= j < |specs| => CString(specs[j].expression))
  }

  /** Some pattern gives an id. */
  predicate AnyId(specs: seq<PatternSpec>) {
    exists j | 0 <= j < |specs| :: specs[j].id.Some?
  }

  /** Some pattern gives flags. */
  predicate AnyFlags(specs: seq<PatternSpec>) {
    exists j | 0 <= j < |specs| :: specs[j].flags.Some?
  }

  /** Some pattern gives an extended constraint. */
  predicate AnyExt(specs: seq<PatternSpec>) {
    exists j | 0 <= j < |specs| :: specs[j].ext.Some?
  }

  /** A zero-filled ids array of `n` slots with the ids of the first patterns written in. */
  function IdSlots(specs: seq<PatternSpec>, n: nat): (slots: seq<bv32>)
    requires |specs| <= n
    ensures |slots| == n
  {
    seq(n, j requires 0 <= j < n => if j < |specs| then specs[j].id.GetOr(0) else 0)
  }

  /** A zero-filled flags array of `n` slots with the flags of the first patterns written in. */
  function FlagSlots(specs: seq<PatternSpec>, n: nat): (slots: seq<bv32>)
    requires |specs| <= n
    ensures |slots| == n
  {
    seq(n, j requires 0 <= j < n => if j < |specs| then specs[j].flags.GetOr(0) else 0)
  }

  /** A NULL-filled ext array of `n` slots with the records of the first patterns written in. */
  function ExtSlots(specs: seq<PatternSpec>, n: nat): (slots: seq<Option<ExtRecord>>)
    requires |specs| <= n
    ensures |slots| == n
  {
    seq(n, j requires 0 <= j < n => if j < |specs| then specs[j].ext else None)
  }

  /** One more pattern writes only its own slot of each array. */
  lemma SlotsSnoc(specs: seq<PatternSpec>, spec: PatternSpec, n: nat)
    requires |specs| < n
    ensures Expressions(specs + [spec]) == Expressions(specs) + [CString(spec.expression)]
    ensures IdSlots(specs + [spec], n) ==
      if spec.id.Some? then IdSlots(specs, n)[|specs| := spec.id.value] else IdSlots(specs, n)
    ensures FlagSlots(specs + [spec], n) ==
      if spec.flags.Some? then FlagSlots(specs, n)[|specs| := spec.flags.value] else FlagSlots(specs, n)
    ensures ExtSlots(specs + [spec], n) ==
      if spec.ext.Some? then ExtSlots(specs, n)[|specs| := spec.ext] else ExtSlots(specs, n)
  {
    var longer := specs + [spec];
    assert longer[|specs|] == spec;
    assert forall j | 0 <= j < |specs| :: longer[j] == specs[j];
  }

  /** Which optional parts some pattern of a prefix gives, after one more pattern. */
  lemma AnySnoc(specs: seq<PatternSpec>, spec: PatternSpec)
    ensures AnyId(specs + [spec]) <==> AnyId(specs) || spec.id.Some?
    ensures AnyFlags(specs + [spec]) <==> AnyFlags(specs) || spec.flags.Some?
    ensures AnyExt(specs + [spec]) <==> AnyExt(specs) || spec.ext.Some?
  {
    var longer := specs + [spec];
    assert longer[|specs|] == spec;
    assert forall j | 0 <= j < |specs| :: longer[j] == specs[j];
  }

  /** The ids array: NULL unless some pattern gives an id, then one entry per pattern, 0 by default. */
  function IdsArray(specs: seq<PatternSpec>): Option<seq<bv32>> {
    if AnyId(specs) then Some(IdSlots(specs, |specs|)) else None
  }

  /** The flags array, with the same NULL-or-complete shape as the ids array. */
  function FlagsArray(specs: seq<PatternSpec>): Option<seq<bv32>> {
    if AnyFlags(specs) then Some(FlagSlots(specs, |specs|)) else None
  }

  /** The sparse ext array: NULL unless some pattern has constraints, then NULL entries for the others. */
  function ExtArray(specs: seq<PatternSpec>): Option<seq<Option<ExtRecord>>> {
    if AnyExt(specs) then Some(ExtSlots(specs, |specs|)) else None
  }

  /** The batch request made from normalised patterns; the ext entry point is used iff the ext array is passed. */
  function MultiRequest(specs: seq<PatternSpec>, mode: bv32, platform: Option<Platform>): CallDescriptor {
    var ext := ExtArray(specs);
    Multi(Expressions(specs), IdsArray(specs), FlagsArray(specs), ext, mode, platform, ext.Some?)
  }

  /** A passed array has one entry per pattern, read from that pattern. */
  lemma ArrayEntries(specs: seq<PatternSpec>)
    ensures IdsArray(specs).Some? ==>
      |IdsArray(specs).value| == |specs| && forall i | 0 <= i < |specs| :: IdsArray(specs).value[i] == specs[i].id.GetOr(0)
    ensures FlagsArray(specs).Some? ==>
      |FlagsArray(specs).value| == |specs| && forall i | 0 <= i < |specs| :: FlagsArray(specs).value[i] == specs[i].flags.GetOr(0)
    ensures ExtArray(specs).Some? ==>
      |ExtArray(specs).value| == |specs| && forall i | 0 <= i < |specs| :: ExtArray(specs).value[i] == specs[i].ext
  {
  }

  /**
   * The batch request compileMulti builds from the `expressions` table: it
   * must be a table, its elements are normalised in order and the first bad
   * one decides the error; on success the expressions follow the elements
   * and the mode and platform are passed through.
   */
  function AssembleMulti(x: Value, mode: bv32, platform: Option<Platform>): (r: Result<CallDescriptor, Error>)
    ensures !x.Table? ==> r == Err(ArgExpected("table", TypeName(x)))
    ensures r.Err? ==> r.error.IsArgumentError()
    ensures r.Ok? ==> r.value.Multi? && r.value.mode == mode && r.value.platform == platform
  {
    if !x.Table? then
      Err(ArgExpected("table", TypeName(x)))
    else
      var specs :- ParseElements(x.items);
      Ok(MultiRequest(specs, mode, platform))
  }

  /**
   * A batch request succeeds exactly when every element normalises; the
   * first element that fails decides the error; on success there is one
   * expression per element, in order.
   */
  lemma BatchOutcome(x: Value, mode: bv32, platform: Option<Platform>)
    requires x.Table?
    ensures var r := AssembleMulti(x, mode, platform);
      && (r.Ok? <==> forall i | 0 <= i < |x.items| :: ParseElement(x.items[i]).Ok?)
      && (r.Err? ==>
          exists i | 0 <= i < |x.items| ::
            && ParseElement(x.items[i]) == Err(r.error)
            && forall j | 0 <= j < i :: ParseElement(x.items[j]).Ok?)
      && (r.Ok? ==>
          && |r.value.expressions| == |x.items|
          && forall i | 0 <= i < |x.items| :: r.value.expressions[i] == CString(ParseElement(x.items[i]).value.expression))
  {
  }

  /** The normalised elements behind a successful batch request. */
  lemma AssembledFromSpecs(x: Value, mode: bv32, platform: Option<Platform>)
    requires AssembleMulti(x, mode, platform).Ok?
    ensures x.Table? && ParseElements(x.items).Ok?
    ensures var specs := ParseElements(x.items).value;
      var r := AssembleMulti(x, mode, platform).value;
      && r.ids == IdsArray(specs)
      && r.flagsArray == FlagsArray(specs)
      && r.ext == ExtArray(specs)
      && r.useExt == r.ext.Some?
  {
  }

  /**
   * The ids array is NULL unless some element table supplies a numeric `id`;
   * when passed it has one entry per element, the element's id or 0.
   */
  lemma BatchIds(x: Value, mode: bv32, platform: Option<Platform>)
    requires AssembleMulti(x, mode, platform).Ok?
    ensures var r := AssembleMulti(x, mode, platform).value;
      && x.Table?
      && (r.ids.None? <==> forall i | 0 <= i < |x.items| :: !Supplies(x.items[i], "id"))
      && (r.ids.Some? ==> |r.ids.value| == |x.items|)
      && (r.ids.Some? ==> forall i | 0 <= i < |x.items| ::
            r.ids.value[i] == if Supplies(x.items[i], "id") then Low32(Field(x.items[i], "id").n) else 0)
  {
    AssembledFromSpecs(x, mode, platform);
    var specs := ParseElements(x.items).value;
    ArrayEntries(specs);
    forall i | 0 <= i < |x.items|
      ensures specs[i].id.Some? <==> Supplies(x.items[i], "id")
      ensures Supplies(x.items[i], "id") ==> specs[i].id.value == Low32(Field(x.items[i], "id").n)
    {
      ElementFields(x.items[i]);
    }
  }

  /**
   * The flags array is NULL unless some element table supplies `flags`;
   * when passed it has one entry per element, the element's mask or 0.
   */
  lemma BatchFlags(x: Value, mode: bv32, platform: Option<Platform>)
    requires AssembleMulti(x, mode, platform).Ok?
    ensures var r := AssembleMulti(x, mode, platform).value;
      && x.Table?
      && (r.flagsArray.None? <==> forall i | 0 <= i < |x.items| :: !SuppliesFlags(x.items[i]))
      && (r.flagsArray.Some? ==> |r.flagsArray.value| == |x.items|)
      && (r.flagsArray.Some? ==> forall i | 0 <= i < |x.items| ::
            if SuppliesFlags(x.items[i]) then ToFlags(Field(x.items[i], "flags"), "flags") == Ok(r.flagsArray.value[i])
            else r.flagsArray.value[i] == 0)
  {
    AssembledFromSpecs(x, mode, platform);
    var specs := ParseElements(x.items).value;
    ArrayEntries(specs);
    forall i | 0 <= i < |x.items|
      ensures specs[i].flags.Some? <==> SuppliesFlags(x.items[i])
      ensures SuppliesFlags(x.items[i]) ==>
        ToFlags(Field(x.items[i], "flags"), "flags") == Ok(specs[i].flags.value)
    {
      ElementFields(x.items[i]);
    }
  }

  /**
   * The ext array is NULL unless some element gives a constraint; when passed,
   * entry i is non-NULL exactly when element i gives one, with flag bits for
   * exactly the constraints given. The extended entry point is used exactly
   * when the ext array is passed.
   */
  lemma BatchExt(x: Value, mode: bv32, platform: Option<Platform>)
    requires AssembleMulti(x, mode, platform).Ok?
    ensures var r := AssembleMulti(x, mode, platform).value;
      && x.Table?
      && (r.ext.None? <==> forall i | 0 <= i < |x.items| :: !HasConstraint(x.items[i]))
      && (r.useExt <==> r.ext.Some?)
      && (r.ext.Some? ==> |r.ext.value| == |x.items|)
      && (r.ext.Some? ==> forall i | 0 <= i < |x.items| ::
            && (r.ext.value[i].Some? <==> HasConstraint(x.items[i]))
            && (r.ext.value[i].Some? ==>
                  && ExtWellFormed(r.ext.value[i].value)
                  && (r.ext.value[i].value.minOffset.Some? <==> Supplies(x.items[i], "min_offset"))
                  && (r.ext.value[i].value.maxOffset.Some? <==> Supplies(x.items[i], "max_offset"))
                  && (r.ext.value[i].value.minLength.Some? <==> Supplies(x.items[i], "min_length"))))
  {
    AssembledFromSpecs(x, mode, platform);
    var specs := ParseElements(x.items).value;
    ArrayEntries(specs);
    forall i | 0 <= i < |x.items|
      ensures specs[i].ext.Some? <==> HasConstraint(x.items[i])
      ensures specs[i].ext.Some? ==>
        && ExtWellFormed(specs[i].ext.value)
        && (specs[i].ext.value.minOffset.Some? <==> Supplies(x.items[i], "min_offset"))
        && (specs[i].ext.value.maxOffset.Some? <==> Supplies(x.items[i], "max_offset"))
        && (specs[i].ext.value.minLength.Some? <==> Supplies(x.items[i], "min_length"))
    {
      ElementExt(x.items[i]);
    }
  }

  /**
   * Each constraint an element gives reaches its ext record as the field's
   * low 32 bits, sign-extended to 64.
   */
  lemma BatchExtValues(x: Value, mode: bv32, platform: Option<Platform>)
    requires AssembleMulti(x, mode, platform).Ok?
    ensures var r := AssembleMulti(x, mode, platform).value;
      && x.Table?
      && (r.ext.Some? ==> |r.ext.value| == |x.items|)
      && (r.ext.Some? ==> forall i | 0 <= i < |x.items| && r.ext.value[i].Some? ::
            && (Supplies(x.items[i], "min_offset") ==>
                  r.ext.value[i].value.minOffset == Some(Widen(Low32(Field(x.items[i], "min_offset").n))))
            && (Supplies(x.items[i], "max_offset") ==>
                  r.ext.value[i].value.maxOffset == Some(Widen(Low32(Field(x.items[i], "max_offset").n))))
            && (Supplies(x.items[i], "min_length") ==>
                  r.ext.value[i].value.minLength == Some(Widen(Low32(Field(x.items[i], "min_length").n)))))
  {
    AssembledFromSpecs(x, mode, platform);
    var specs := ParseElements(x.items).value;
    ArrayEntries(specs);
    forall i | 0 <= i < |x.items| && specs[i].ext.Some?
      ensures Supplies(x.items[i], "min_offset") ==>
        specs[i].ext.value.minOffset == Some(Widen(Low32(Field(x.items[i], "min_offset").n)))
      ensures Supplies(x.items[i], "max_offset") ==>
        specs[i].ext.value.maxOffset == Some(Widen(Low32(Field(x.items[i], "max_offset").n)))
      ensures Supplies(x.items[i], "min_length") ==>
        specs[i].ext.value.minLength == Some(Widen(Low32(Field(x.items[i], "min_length").n)))
    {
      ElementExt(x.items[i]);
    }
  }

  /** Every batch request the binding assembles satisfies the engine's array-shape contract. */
  lemma BatchWellFormed(x: Value, mode: bv32, platform: Option<Platform>)
    requires AssembleMulti(x, mode, platform).Ok?
    ensures WellFormedCall(AssembleMulti(x, mode, platform).value)
  {
    BatchIds(x, mode, platform);
    BatchFlags(x, mode, platform);
    BatchExt(x, mode, platform);
  }

  /**
   * compileMulti's loop as written, for any per-element normalisation
   * `parse`: the ids, flags and ext arrays start as zero-filled scratch space
   * and NULL pointers, and a pointer is switched to its scratch array the
   * first time an element supplies that field.
   */
  method ElementLoop(items: seq<Value>, parse: Value -> Result<PatternSpec, Error>, mode: bv32, platform: Option<Platform>)
    returns (r: Result<CallDescriptor, Error>)
    ensures CollectAll(items, parse).Err? ==> r == Err(CollectAll(items, parse).error)
    ensures CollectAll(items, parse).Ok? ==> r == Ok(MultiRequest(CollectAll(items, parse).value, mode, platform))
  {
    var n := |items|;
    var expressions: seq<string> := [];
    var idsSpace: seq<bv32> := seq(n, _ => 0);
    var flagsSpace: seq<bv32> := seq(n, _ => 0);
    var extSpace: seq<Option<ExtRecord>> := seq(n, _ => None);
    var useIds, useFlags, useExt := false, false, false;
    ghost var specs: seq<PatternSpec> := [];
    assert idsSpace == IdSlots(specs, n) && flagsSpace == FlagSlots(specs, n) && extSpace == ExtSlots(specs, n);
    var i := 0;
    while i < n
      invariant 0 <= i <= n && |specs| == i
      invariant CollectAll(items[..i], parse) == Ok(specs)
      invariant expressions == Expressions(specs)
      invariant idsSpace == IdSlots(specs, n)
      invariant flagsSpace == FlagSlots(specs, n)
      invariant extSpace == ExtSlots(specs, n)
      invariant useIds == AnyId(specs)
      invariant useFlags == AnyFlags(specs)
      invariant useExt == AnyExt(specs)
    {
      var element := parse(items[i]);
      if element.Err? {
        CollectAllFirstFailure(items, parse, i);
        return Err(element.error);
      }
      var spec := element.value;
      CollectAllSnoc(items, parse, i);
      SlotsSnoc(specs, spec, n);
      AnySnoc(specs, spec);
      expressions := expressions + [CString(spec.expression)];
      if spec.id.Some? {
        useIds := true;
        idsSpace := idsSpace[i := spec.id.value];
      }
      if spec.flags.Some? {
        useFlags := true;
        flagsSpace := flagsSpace[i := spec.flags.value];
      }
      if spec.ext.Some? {
        useExt := true;
        extSpace := extSpace[i := spec.ext];
      }
      specs := specs + [spec];
      i := i + 1;
    }
    assert items[..n] == items;
    r := Ok(Multi(
      expressions,
      if useIds then Some(idsSpace) else None,
      if useFlags then Some(flagsSpace) else None,
      if useExt then Some(extSpace) else None,
      mode,
      platform,
      useExt));
  }

  /** compileMulti: `expressions` must be a table, whose elements the loop normalises with `ParseElement`. */
  method CompileMulti(x: Value, mode: bv32, platform: Option<Platform>) returns (r: Result<CallDescriptor, Error>)
    ensures r == AssembleMulti(x, mode, platform)
  {
    if !x.Table? {
      return Err(ArgExpected("table", TypeName(x)));
    }
    r := ElementLoop(x.items, ParseElement, mode, platform);
  }

}

=== FILE: compiler.dfy ===
/**
 * The `compile` entry point: argument checks in the binding's order, the
 * choice between the single-expression and the batch route, the engine call,
 * and the message raised when the engine rejects a pattern.
 */
module Compiler {
  import opened Wrappers
  import opened Numerals
  import opened Errors
  import opened LuaValues
  import opened Engine
  import opened Flags
  import opened Batch

  /**
   * The engine call `compile` makes for its argument table, or the usage
   * error it raises first. `mode` is checked before `platform`; a non-nil
   * `expression` selects `hs_compile`, otherwise a non-nil `expressions`
   * selects the batch route, otherwise the request names neither.
   */
  function Dispatch(arg: Value): (r: Result<CallDescriptor, Error>)
    ensures !arg.Table? ==> r == Err(ArgExpected("table", TypeName(arg)))
    ensures arg.Table? && !Field(arg, "mode").Num? ==> r == Err(BadType("mode", TypeName(Field(arg, "mode"))))
    ensures arg.Table? && Field(arg, "mode").Num? && ToPlatform(Field(arg, "platform")).Err? ==>
      r == Err(ToPlatform(Field(arg, "platform")).error)
    ensures r.Ok? ==>
      && arg.Table?
      && Field(arg, "mode").Num?
      && r.value.mode == Low32(Field(arg, "mode").n)
      && ToPlatform(Field(arg, "platform")).Ok?
      && r.value.platform == ToPlatform(Field(arg, "platform")).value
    ensures r.Ok? ==> (r.value.Single? <==> !Field(arg, "expression").Nil?)
    ensures r.Ok? && r.value.Single? ==>
      && CheckString(Field(arg, "expression")).Ok?
      && r.value.expression == CString(CheckString(Field(arg, "expression")).value)
      && ToFlags(Field(arg, "flags"), "flags") == Ok(r.value.flags)
    ensures r.Ok? && r.value.Multi? ==>
      && Field(arg, "expression").Nil?
      && r == AssembleMulti(Field(arg, "expressions"), r.value.mode, r.value.platform)
    ensures arg.Table? && Field(arg, "mode").Num? && ToPlatform(Field(arg, "platform")).Ok?
            && !Field(arg, "expression").Nil? ==>
      var e := CheckString(Field(arg, "expression"));
      var flags := ToFlags(Field(arg, "flags"), "flags");
      && (r.Ok? <==> e.Ok? && flags.Ok?)
      && (e.Err? ==> r == Err(e.error))
      && (e.Ok? && flags.Err? ==> r == Err(flags.error))
    ensures arg.Table? && Field(arg, "mode").Num? && ToPlatform(Field(arg, "platform")).Ok?
            && Field(arg, "expression").Nil? && !Field(arg, "expressions").Nil? ==>
      r == AssembleMulti(Field(arg, "expressions"), Low32(Field(arg, "mode").n), ToPlatform(Field(arg, "platform")).value)
    ensures r.Err? ==> r.error.IsUsageError()
    ensures r == Err(NoExpression) <==>
      && arg.Table?
      && Field(arg, "mode").Num?
      && ToPlatform(Field(arg, "platform")).Ok?
      && Field(arg, "expression").Nil?
      && Field(arg, "expressions").Nil?
  {
    if !arg.Table? then
      Err(ArgExpected("table", TypeName(arg)))
    else
      var mode :- ToMode(Field(arg, "mode"));
      var platform :- ToPlatform(Field(arg, "platform"));
      var expression := Field(arg, "expression");
      if !expression.Nil? then
        var e :- CheckString(expression);
        var flags :- ToFlags(Field(arg, "flags"), "flags");
        Ok(Single(CString(e), flags, mode, platform))
      else
        var expressions := Field(arg, "expressions");
        if !expressions.Nil? then
          AssembleMulti(expressions, mode, platform)
        else
          Err(NoExpression)
  }

  /** When `expression` is given, `expressions` is never looked at. */
  lemma SingleIgnoresExpressions(arg: Value, other: Value)
    requires arg.Table? && !Field(arg, "expression").Nil?
    ensures Dispatch(WithField(arg, "expressions", other)) == Dispatch(arg)
  {
    var u := WithField(arg, "expressions", other);
    assert Field(u, "mode") == Field(arg, "mode");
    assert Field(u, "platform") == Field(arg, "platform");
    assert Field(u, "expression") == Field(arg, "expression");
    assert Field(u, "flags") == Field(arg, "flags");
  }

  /** On the batch route the top-level `flags` field is never looked at. */
  lemma BatchIgnoresTopLevelFlags(arg: Value, other: Value)
    requires arg.Table? && Field(arg, "expression").Nil?
    ensures Dispatch(WithField(arg, "flags", other)) == Dispatch(arg)
  {
    var u := WithField(arg, "flags", other);
    assert Field(u, "mode") == Field(arg, "mode");
    assert Field(u, "platform") == Field(arg, "platform");
    assert Field(u, "expression") == Field(arg, "expression");
    assert Field(u, "expressions") == Field(arg, "expressions");
  }

  /** Every engine call `compile` makes is well formed. */
  lemma DispatchWellFormed(arg: Value)
    requires Dispatch(arg).Ok?
    ensures WellFormedCall(Dispatch(arg).value)
  {
    var c := Dispatch(arg).value;
    if c.Multi? {
      BatchWellFormed(Field(arg, "expressions"), c.mode, c.platform);
    }
  }

  const COMPILE_ERROR_PREFIX: string := "Unable to compile expression"

  /**
   * throwCompileError's message: the expression index is named when the
   * diagnostic attributes the failure to one expression (index >= 0).
   */
  function CompileErrorText(d: Diagnostic): (t: string)
    ensures |t| >= |COMPILE_ERROR_PREFIX| + 2 && t[..|COMPILE_ERROR_PREFIX|] == COMPILE_ERROR_PREFIX
    ensures d.expression < 0 ==> t[|COMPILE_ERROR_PREFIX|..] == ": " + d.message
    ensures d.expression >= 0 ==> t[|COMPILE_ERROR_PREFIX|..|COMPILE_ERROR_PREFIX| + 2] == " #"
  {
    if d.expression >= 0 then
      COMPILE_ERROR_PREFIX + " #" + Decimal(d.expression) + ": " + d.message
    else
      COMPILE_ERROR_PREFIX + ": " + d.message
  }

  /**
   * Reads a compile-failure message back into the expression index (-1
   * when none is named) and the engine's message.
   */
  function ParseCompileErrorText(t: string): Option<(int, string)> {
    var p := |COMPILE_ERROR_PREFIX|;
    if |t| < p + 2 || t[..p] != COMPILE_ERROR_PREFIX then None
    else if t[p..p + 2] == ": " then Some((-1 as int, t[p + 2..]))
    else if t[p..p + 2] == " #" then
      var rest := t[p + 2..];
      var k := LeadingDigits(rest);
      if 0 < k && k + 2 <= |rest| && rest[k..k + 2] == ": " then
        Some((DigitsValue(rest[..k]), rest[k + 2..]))
      else
        None
    else
      None
  }

  /**
   * The message loses nothing but the sign of an unattributed index: the
   * index (or -1) and the engine's message can be read back from it.
   */
  lemma CompileErrorTextRoundTrip(d: Diagnostic)
    ensures ParseCompileErrorText(CompileErrorText(d))
         == Some((if d.expression >= 0 then d.expression else -1, d.message))
  {
    var p := |COMPILE_ERROR_PREFIX|;
    var t := CompileErrorText(d);
    if d.expression >= 0 {
      var digits := Decimal(d.expression);
      assert digits == Digits(d.expression);
      var rest := t[p + 2..];
      assert rest == digits + ": " + d.message;
      assert rest == digits + (": " + d.message);
      LeadingDigitsOfConcat(digits, ": " + d.message);
      var k := |digits|;
      assert rest[..k] == digits;
      assert rest[k..k + 2] == ": ";
      assert rest[k + 2..] == d.message;
      DigitsRoundTrip(d.expression);
    } else {
      assert t[p + 2..] == d.message;
    }
  }

  /** Distinct attributed diagnostics give distinct messages. */
  lemma CompileErrorTextInjective(d1: Diagnostic, d2: Diagnostic)
    requires d1.expression >= 0 && d2.expression >= 0
    requires CompileErrorText(d1) == CompileErrorText(d2)
    ensures d1 == d2
  {
    CompileErrorTextRoundTrip(d1);
    CompileErrorTextRoundTrip(d2);
  }

  /** The engine primitives `compile` calls, in the order it calls them. */
  datatype EngineCall = HsCompile(call: CallDescriptor) | HsFreeCompileError(diagnostic: Diagnostic)

  /** A run of `compile`: the engine calls made and the database or raised error. */
  datatype CompileRun = CompileRun(calls: seq<EngineCall>, result: Result<nat, Error>)

  /**
   * compile, with the engine's compiler as a parameter. A usage error is
   * raised before any engine call; otherwise the engine is called once, and
   * a rejection is raised with throwCompileError's message after the
   * diagnostic has been released.
   */
  function Compile(arg: Value, engine: CallDescriptor -> CompileOutcome): (run: CompileRun)
    ensures Dispatch(arg).Err? ==> run == CompileRun([], Err(Dispatch(arg).error))
    ensures Dispatch(arg).Ok? ==> |run.calls| >= 1 && run.calls[0] == HsCompile(Dispatch(arg).value)
    ensures run.result.Ok? <==> Dispatch(arg).Ok? && engine(Dispatch(arg).value).Built?
    ensures run.result.Ok? ==> |run.calls| == 1 && run.result.value == engine(Dispatch(arg).value).database
    ensures run.result.Err? && run.calls != [] ==>
      var d := engine(Dispatch(arg).value).diagnostic;
      && run.calls == [HsCompile(Dispatch(arg).value), HsFreeCompileError(d)]
      && run.result == Err(CompileFailed(CompileErrorText(d)))
  {
    match Dispatch(arg)
    case Err(e) => CompileRun([], Err(e))
    case Ok(call) =>
      match engine(call)
      case Built(db) => CompileRun([HsCompile(call)], Ok(db))
      case Rejected(d) => CompileRun([HsCompile(call), HsFreeCompileError(d)], Err(CompileFailed(CompileErrorText(d))))
  }

  /**
   * Naming neither `expression` nor `expressions` is a usage error raised
   * before the engine is reached, whatever the engine would have done.
   */
  lemma NoExpressionReachesNoEngine(arg: Value, engine: CallDescriptor -> CompileOutcome)
    requires arg.Table? && Field(arg, "mode").Num? && ToPlatform(Field(arg, "platform")).Ok?
    requires Field(arg, "expression").Nil? && Field(arg, "expressions").Nil?
    ensures Compile(arg, engine) == CompileRun([], Err(NoExpression))
  {
  }

  /** A raised error is a usage error exactly when the engine was never called. */
  lemma CompileErrorKinds(arg: Value, engine: CallDescriptor -> CompileOutcome)
    requires Compile(arg, engine).result.Err?
    ensures Compile(arg, engine).result.error.IsUsageError() <==> Compile(arg, engine).calls == []
  {
  }
}

=== FILE: engine.dfy ===
/**
 * The data the binding hands to, and receives from, the Hyperscan engine:
 * the platform record, extended-constraint records, the descriptor of one
 * compile call, compile diagnostics and match events. The engine's own
 * behaviour is not modelled; it enters as parameters of the operations.
 */
module Engine {
  import opened Wrappers

  /** `HS_SUCCESS`: the status of an engine call that succeeded. */
  const HS_SUCCESS: int := 0

  /** Bits of `hs_expr_ext_t.flags` saying which constraint fields are set. */
  const HS_EXT_FLAG_MIN_OFFSET: bv64 := 1
  const HS_EXT_FLAG_MAX_OFFSET: bv64 := 2
  const HS_EXT_FLAG_MIN_LENGTH: bv64 := 4

  /** `hs_platform_info_t`: `tune` is an `unsigned int`, the others `unsigned long long`. */
  datatype Platform = Platform(tune: bv32, cpuFeatures: bv64, reserved1: bv64, reserved2: bv64)

  /**
   * `hs_expr_ext_t` as the binding fills it. A value field whose flag bit is
   * clear is left unspecified (the binding copies an uninitialised local),
   * so it is `None` here.
   */
  datatype ExtRecord = ExtRecord(
    flags: bv64,
    minOffset: Option<bv64>,
    maxOffset: Option<bv64>,
    minLength: Option<bv64>)

  /** A record whose flag bits are exactly the ones for its specified fields. */
  predicate ExtWellFormed(e: ExtRecord) {
    && e.flags & !(HS_EXT_FLAG_MIN_OFFSET | HS_EXT_FLAG_MAX_OFFSET | HS_EXT_FLAG_MIN_LENGTH) == 0
    && (e.flags & HS_EXT_FLAG_MIN_OFFSET != 0 <==> e.minOffset.Some?)
    && (e.flags & HS_EXT_FLAG_MAX_OFFSET != 0 <==> e.maxOffset.Some?)
    && (e.flags & HS_EXT_FLAG_MIN_LENGTH != 0 <==> e.minLength.Some?)
  }

  /**
   * One call into the engine's compiler. `Single` is `hs_compile`; `Multi` is
   * `hs_compile_ext_multi` when `useExt` holds and `hs_compile_multi`
   * otherwise. A `None` array is passed as a NULL pointer; the element count
   * is the number of expressions. Expressions are passed as `const char*`
   * without a length, so each is the text the engine reads up to the first NUL.
   */
  datatype CallDescriptor =
    | Single(expression: string, flags: bv32, mode: bv32, platform: Option<Platform>)
    | Multi(
        expressions: seq<string>,
        ids: Option<seq<bv32>>,
        flagsArray: Option<seq<bv32>>,
        ext: Option<seq<Option<ExtRecord>>>,
        mode: bv32,
        platform: Option<Platform>,
        useExt: bool)

  /** The arrays of a batch call agree in length, and the entry point matches the ext array. */
  predicate WellFormedCall(c: CallDescriptor) {
    c.Multi? ==>
      && (c.ids.Some? ==> |c.ids.value| == |c.expressions|)
      && (c.flagsArray.Some? ==> |c.flagsArray.value| == |c.expressions|)
      && (c.ext.Some? ==> |c.ext.value| == |c.expressions|)
      && (c.ext.Some? ==> forall i | 0 <= i < |c.ext.value| && c.ext.value[i].Some? :: ExtWellFormed(c.ext.value[i].value))
      && (c.useExt <==> c.ext.Some?)
  }

  /** `hs_compile_error_t`: the index of the failing expression (negative if none) and a message. */
  datatype Diagnostic = Diagnostic(expression: int, message: string)

  /** The engine's answer to a compile call. */
  datatype CompileOutcome = Built(database: nat) | Rejected(diagnostic: Diagnostic)

  /** The arguments of one match callback: pattern id, span and (unused) flags. */
  datatype MatchEvent = MatchEvent(id: bv32, from: bv64, to: bv64, flags: bv32)

  /**
   * What `hs_scan` does with a buffer when every callback asks it to go on:
   * the matches it reports, in order, and the status it finally returns.
   */
  datatype ScanOutcome = ScanOutcome(events: seq<MatchEvent>, status: int)
}

=== FILE: errors.dfy ===
/**
 * The errors the binding raises. Usage errors are detected locally before
 * any engine call; compile failures carry the text built from the engine's
 * diagnostic; engine failures carry the engine's status code.
 */
module Errors {
  import opened Wrappers

  datatype Error =
      /** "Bad type of '<name>': <type>" from toFlags, toMode and toPlatform. */
    | BadType(name: string, typeName: string)
      /** "Bad type of arg1.expressions[i].<field>: <type>" from getIntegerField. */
    | BadElementField(field: string, typeName: string)
      /** "Bad type of arg1.expressions[i].expression: <type>" from compileMulti. */
    | BadElement(typeName: string)
      /** A `luaL_checkinteger` / `luaL_checkstring` / `luaL_checktype` failure. */
    | ArgExpected(expected: string, typeName: string)
      /** "Specify 'expression' or 'expressions'" from compile. */
    | NoExpression
      /** The text pushed by throwCompileError. */
    | CompileFailed(text: string)
      /** A non-success status of an engine call, reported through errorToString. */
    | EngineFailure(status: int)
  {
    /** A value of the wrong type somewhere in the arguments. */
    predicate IsArgumentError() {
      BadType? || BadElementField? || BadElement? || ArgExpected?
    }

    /** Raised by the binding itself, before any engine call. */
    predicate IsUsageError() {
      IsArgumentError() || NoExpression?
    }
  }

  /**
   * The message text for the errors whose wording the binding writes itself.
   * The Lua auxiliary library prefixes argument errors with the argument
   * position and function name, and errorToString maps status codes to text;
   * neither is part of this model, so those errors have no text here.
   */
  function Message(e: Error): (m: Option<string>)
    ensures m.Some? <==> !(e.ArgExpected? || e.EngineFailure?)
    ensures e.BadType? || e.BadElementField? || e.BadElement? ==> "Bad type of " <= m.value
    ensures e.NoExpression? ==> m.value == "Specify 'expression' or 'expressions'"
  {
    match e
    case BadType(name, t) => Some("Bad type of '" + name + "': " + t)
    case BadElementField(field, t) => Some("Bad type of arg1.expressions[i]." + field + ": " + t)
    case BadElement(t) => Some("Bad type of arg1.expressions[i].expression: " + t)
    case NoExpression => Some("Specify 'expression' or 'expressions'")
    case CompileFailed(text) => Some(text)
    case ArgExpected(_, _) => None
    case EngineFailure(_) => None
  }
}

=== FILE: flags.dfy ===
/**
 * Normalisation of the scalar compile arguments: flag masks (an integer or a
 * table of integers OR-ed together), the mode, and the optional platform.
 */
module Flags {
  import opened Wrappers
  import opened Numerals
  import opened Errors
  import opened LuaValues
  import opened Engine

  /** Bit `k` of a mask. */
  predicate Bit(x: bv32, k: bv32)
    requires k < 32
  {
    (x >> k) & 1 == 1
  }

  /** The mask a flags-table element contributes, 0 if it is not an integer. */
  function Mask(v: Value): bv32 {
    match CheckInteger(v)
    case Ok(n) => Low32(n)
    case Err(_) => 0
  }

  /** The masks of all elements of a flags table. */
  function Masks(items: seq<Value>): (ms: seq<bv32>)
    ensures |ms| == |items|
  {
    seq(|items|, j requires 0 <= j < |items| => Mask(items[j]))
  }

  /** The bitwise OR of `ms[i..]` into `acc`. */
  function OrAll(ms: seq<bv32>, i: nat, acc: bv32): bv32
    requires i <= |ms|
    decreases |ms| - i
  {
    if i == |ms| then acc else OrAll(ms, i + 1, acc | ms[i])
  }

  lemma OrBit(x: bv32, y: bv32, b: bv32)
    requires b < 32
    ensures Bit(x | y, b) <==> Bit(x, b) || Bit(y, b)
  {
  }

  /**
   * A bit is set in an OR exactly when it is set in the accumulator or in
   * one of the masks.
   */
  lemma {:induction false} OrAllBits(ms: seq<bv32>, i: nat, acc: bv32, b: bv32)
    requires i <= |ms| && b < 32
    ensures Bit(OrAll(ms, i, acc), b) <==> Bit(acc, b) || exists j | i <= j < |ms| :: Bit(ms[j], b)
    decreases |ms| - i
  {
    if i < |ms| {
      OrBit(acc, ms[i], b);
      OrAllBits(ms, i + 1, acc | ms[i], b);
      if j :| i + 1 <= j < |ms| && Bit(ms[j], b) {
        assert i <= j < |ms|;
      }
      if j :| i <= j < |ms| && Bit(ms[j], b) {
        if j != i {
          assert i + 1 <= j < |ms|;
        }
      }
    }
  }

  /**
   * The loop of toFlags over a table: OR each element, from index `i` on,
   * into `acc`; the first element that is not an integer raises.
   */
  function OrFrom(items: seq<Value>, i: nat, acc: bv32): (r: Result<bv32, Error>)
    requires i <= |items|
    ensures r.Ok? <==> forall j | i <= j < |items| :: CheckInteger(items[j]).Ok?
    ensures r.Err? ==>
      exists j | i <= j < |items| ::
        && CheckInteger(items[j]) == Err(r.error)
        && forall k | i <= k < j :: CheckInteger(items[k]).Ok?
    ensures r.Ok? ==> r.value == OrAll(Masks(items), i, acc)
    decreases |items| - i
  {
    if i == |items| then Ok(acc)
    else
      var n :- CheckInteger(items[i]);
      assert Masks(items)[i] == Low32(n);
      OrFrom(items, i + 1, acc | Low32(n))
  }

  /**
   * toFlags: nil is 0, a number is its low 32 bits, a table is the OR of its
   * elements 1..n (each must be an integer), anything else is a usage error
   * naming the argument.
   */
  function ToFlags(v: Value, name: string): (r: Result<bv32, Error>)
    ensures v.Nil? ==> r == Ok(0)
    ensures v.Num? ==> r == Ok(Low32(v.n))
    ensures v.Table? ==> (r.Ok? <==> forall j | 0 <= j < |v.items| :: CheckInteger(v.items[j]).Ok?)
    ensures v.Table? && r.Ok? ==> r.value == OrAll(Masks(v.items), 0, 0)
    ensures v.Table? && r.Err? ==>
      exists j | 0 <= j < |v.items| ::
        && CheckInteger(v.items[j]) == Err(r.error)
        && forall k | 0 <= k < j :: CheckInteger(v.items[k]).Ok?
    ensures r.Ok? <==> v.Nil? || v.Num? || (v.Table? && forall j | 0 <= j < |v.items| :: CheckInteger(v.items[j]).Ok?)
    ensures !(v.Nil? || v.Num? || v.Table?) ==> r == Err(BadType(name, TypeName(v)))
    ensures r.Err? ==> r.error.IsArgumentError()
  {
    match v
    case Nil => Ok(0)
    case Num(n) => Ok(Low32(n))
    case Table(items, _) => OrFrom(items, 0, 0)
    case _ => Err(BadType(name, TypeName(v)))
  }

  /**
   * A bit is set in the mask of a flags table exactly when it is set in
   * the mask of one of its elements; an empty table gives 0.
   */
  lemma FlagsTableBits(v: Value, name: string, b: bv32)
    requires v.Table? && ToFlags(v, name).Ok? && b < 32
    ensures Bit(ToFlags(v, name).value, b) <==> exists j | 0 <= j < |v.items| :: Bit(Mask(v.items[j]), b)
  {
    var ms := Masks(v.items);
    OrAllBits(ms, 0, 0, b);
    assert !Bit(0, b);
    assert forall j | 0 <= j < |v.items| :: ms[j] == Mask(v.items[j]);
  }

  /** A one-element table of flags means the same as the element itself. */
  lemma SingletonFlags(n: int, name: string)
    ensures ToFlags(Table([Num(n)], map[]), name) == ToFlags(Num(n), name)
  {
    assert Masks([Num(n)]) == [Low32(n)];
    assert 0 | Low32(n) == Low32(n);
  }

  /** toMode: the mode must be a number; it is passed on as an `unsigned int`. */
  function ToMode(v: Value): (r: Result<bv32, Error>)
    ensures r.Ok? <==> v.Num?
    ensures r.Ok? ==> r == ToFlags(v, "mode")
    ensures r.Err? ==> r.error == BadType("mode", TypeName(v))
  {
    if v.Num? then Ok(Low32(v.n)) else Err(BadType("mode", TypeName(v)))
  }

  /**
   * The text raised for a value of the wrong type names the argument, in
   * quotes, and then the value's Lua type: "Bad type of 'flags': string",
   * "Bad type of 'mode': nil".
   */
  lemma TypeErrorMessages(v: Value, name: string)
    ensures !(v.Nil? || v.Num? || v.Table?) ==>
      ToFlags(v, name).Err? && Message(ToFlags(v, name).error) == Some("Bad type of '" + name + "': " + TypeName(v))
    ensures !v.Num? ==>
      ToMode(v).Err? && Message(ToMode(v).error) == Some("Bad type of 'mode': " + TypeName(v))
    ensures !v.Nil? && !v.Table? ==>
      ToPlatform(v).Err? && Message(ToPlatform(v).error) == Some("Bad type of 'platform': " + TypeName(v))
  {
    assert "Bad type of '" + "mode" + "': " == "Bad type of 'mode': ";
    assert "Bad type of '" + "platform" + "': " == "Bad type of 'platform': ";
  }

  /** Every platform field of table `t` is a valid flags value. */
  predicate PlatformFieldsValid(t: Value)
    requires t.Table?
  {
    && ToFlags(Field(t, "tune"), "tune").Ok?
    && ToFlags(Field(t, "cpu_features"), "cpu_features").Ok?
    && ToFlags(Field(t, "reserved1"), "reserved1").Ok?
    && ToFlags(Field(t, "reserved2"), "reserved2").Ok?
  }

  /**
   * toPlatform: nil means no platform (NULL); a table gives a record whose
   * fields are toFlags of the table's fields of the same name, read in order
   * (the 64-bit ones sign-extended from the `int` toFlags returns); any other
   * value is a usage error.
   */
  function ToPlatform(v: Value): (r: Result<Option<Platform>, Error>)
    ensures v.Nil? ==> r == Ok(None)
    ensures !v.Nil? && !v.Table? ==> r == Err(BadType("platform", TypeName(v)))
    ensures r.Err? ==> r.error.IsArgumentError()
    ensures v.Table? ==> (r.Ok? <==> PlatformFieldsValid(v))
    ensures v.Table? && r.Err? ==>
      var tune, cpu := ToFlags(Field(v, "tune"), "tune"), ToFlags(Field(v, "cpu_features"), "cpu_features");
      var res1, res2 := ToFlags(Field(v, "reserved1"), "reserved1"), ToFlags(Field(v, "reserved2"), "reserved2");
      r.error == (if tune.Err? then tune.error else if cpu.Err? then cpu.error
                  else if res1.Err? then res1.error else res2.error)
    ensures v.Table? && r.Ok? ==>
      && r.value.Some?
      && r.value.value.tune == ToFlags(Field(v, "tune"), "tune").value
      && r.value.value.cpuFeatures == Widen(ToFlags(Field(v, "cpu_features"), "cpu_features").value)
      && r.value.value.reserved1 == Widen(ToFlags(Field(v, "reserved1"), "reserved1").value)
      && r.value.value.reserved2 == Widen(ToFlags(Field(v, "reserved2"), "reserved2").value)
  {
    match v
    case Nil => Ok(None)
    case Table(_, _) =>
      var tune :- ToFlags(Field(v, "tune"), "tune");
      var cpuFeatures :- ToFlags(Field(v, "cpu_features"), "cpu_features");
      var reserved1 :- ToFlags(Field(v, "reserved1"), "reserved1");
      var reserved2 :- ToFlags(Field(v, "reserved2"), "reserved2");
      Ok(Some(Platform(tune, Widen(cpuFeatures), Widen(reserved1), Widen(reserved2))))
    case _ => Err(BadType("platform", TypeName(v)))
  }

  /** A platform table that sets none of the four fields describes the all-zero platform. */
  lemma EmptyPlatformIsZero(t: Value)
    requires t.Table?
    requires "tune" !in t.fields && "cpu_features" !in t.fields
    requires "reserved1" !in t.fields && "reserved2" !in t.fields
    ensures ToPlatform(t) == Ok(Some(Platform(0, 0, 0, 0)))
  {
    assert Widen(0) == 0;
  }

  /**
   * Each platform field is read independently: changing one field of the
   * table changes only the corresponding field of the record.
   */
  lemma PlatformFieldsIndependent(t: Value, x: Value)
    requires t.Table?
    requires ToPlatform(t).Ok? && ToFlags(x, "tune").Ok?
    ensures ToPlatform(WithField(t, "tune", x)).Ok?
    ensures ToPlatform(WithField(t, "tune", x)).value.value
         == ToPlatform(t).value.value.(tune := ToFlags(x, "tune").value)
  {
    var u := WithField(t, "tune", x);
    assert Field(u, "cpu_features") == Field(t, "cpu_features");
    assert Field(u, "reserved1") == Field(t, "reserved1");
    assert Field(u, "reserved2") == Field(t, "reserved2");
  }
}

=== FILE: lua_values.dfy ===
/**
 * Lua values as the binding sees them on the Lua stack, and the auxiliary
 * library's checks (`luaL_checkinteger`, `luaL_checkstring`) that coerce them.
 */
module LuaValues {
  import opened Wrappers
  import opened Numerals
  import opened Errors

  /**
   * A Lua value. A table is its array part `items` (the values at keys 1..n, so that
   * its raw length is n) and its string-keyed fields. Booleans, functions,
   * userdata and threads only matter through their type name.
   */
  datatype Value =
    | Nil
    | Num(n: int)
    | Str(s: string)
    | Table(items: seq<Value>, fields: map<string, Value>)
    | Other(typeName: string)

  /** What `lua_typename(L, lua_type(L, i))` reports. */
  function TypeName(v: Value): string {
    match v
    case Nil => "nil"
    case Num(_) => "number"
    case Str(_) => "string"
    case Table(_, _) => "table"
    case Other(t) => t
  }

  /** `lua_getfield` on a table without metatable: an absent field reads as nil. */
  function Field(t: Value, name: string): (v: Value)
    requires t.Table?
    ensures name !in t.fields ==> v == Nil
  {
    if name in t.fields then t.fields[name] else Nil
  }

  /** The table `t` with field `name` set to `v`. */
  function WithField(t: Value, name: string, v: Value): (u: Value)
    requires t.Table?
    ensures u.Table? && Field(u, name) == v
    ensures forall other | other != name :: Field(u, other) == Field(t, other)
  {
    Table(t.items, t.fields[name := v])
  }

  /**
   * `luaL_checkinteger`: a number, or a string Lua can convert to an integer;
   * anything else raises "number expected, got <type>".
   */
  function CheckInteger(v: Value): (r: Result<int, Error>)
    ensures v.Num? ==> r == Ok(v.n)
    ensures r.Ok? <==> v.Num? || (v.Str? && ParseInteger(v.s).Some?)
    ensures v.Str? && r.Ok? ==> ParseInteger(v.s) == Some(r.value)
    ensures r.Err? ==> r.error == ArgExpected("number", TypeName(v)) && r.error.IsArgumentError()
  {
    match v
    case Num(n) => Ok(n)
    case Str(s) =>
      (match ParseInteger(s)
       case Some(n) => Ok(n)
       case None => Err(ArgExpected("number", TypeName(v))))
    case _ => Err(ArgExpected("number", TypeName(v)))
  }

  /**
   * `luaL_checkstring`: a string, or a number, which Lua converts to its
   * decimal text; anything else raises "string expected, got <type>".
   */
  function CheckString(v: Value): (r: Result<string, Error>)
    ensures r.Ok? <==> v.Str? || v.Num?
    ensures v.Str? ==> r == Ok(v.s)
    ensures v.Num? ==> r == Ok(Decimal(v.n))
    ensures r.Err? ==> r.error == ArgExpected("string", TypeName(v))
  {
    match v
    case Str(s) => Ok(s)
    case Num(n) => Ok(Decimal(n))
    case _ => Err(ArgExpected("string", TypeName(v)))
  }

  /**
   * The text C code sees through the `const char*` that `luaL_checkstring`
   * returns: the characters before the first NUL. A Lua string may hold
   * NULs; a reader of NUL-terminated strings stops at the first one.
   */
  function CString(s: string): (t: string)
    ensures t <= s
    ensures '\0' !in t
    ensures |t| < |s| ==> s[|t|] == '\0'
    decreases |s|
  {
    if |s| == 0 || s[0] == '\0' then [] else [s[0]] + CString(s[1..])
  }

  /** The three properties of `CString` determine it: any such prefix is the C text. */
  lemma CStringUnique(s: string, u: string)
    requires u <= s && '\0' !in u
    requires |u| < |s| ==> s[|u|] == '\0'
    ensures u == CString(s)
  {
    var t := CString(s);
    if |u| < |t| {
      assert false;
    } else if |t| < |u| {
      assert false;
    }
  }

  /** A string without NUL reaches C code unchanged, and only such a string does. */
  lemma CStringWhole(s: string)
    ensures CString(s) == s <==> '\0' !in s
  {
    if '\0' !in s {
      CStringUnique(s, s);
    }
  }

  /** A number converted by `luaL_checkstring` reads back as the same integer. */
  lemma CheckStringThenInteger(n: int)
    ensures CheckInteger(Str(CheckString(Num(n)).value)) == Ok(n)
  {
    DecimalRoundTrip(n);
  }
}

=== FILE: matching.dfy ===
/**
 * Match collection during `scan`: the engine reports each match to a
 * callback, which appends an `{id, from, to}` table to the results and asks
 * the engine to continue; the results are returned only if the scan succeeds.
 */
module Matching {
  import opened Wrappers
  import opened Numerals
  import opened Errors
  import opened LuaValues
  import opened Engine

  /** The callback's context: the results table being filled (by integer key) and its count. */
  datatype MatchContext = MatchContext(results: map<int, Value>, nresults: int)

  /** The `{id, from, to}` table made for one match; the offsets are pushed as `lua_Integer`. */
  function MatchRecord(ev: MatchEvent): Value {
    Table([], map[
      "id" := Num(ev.id as int),
      "from" := Num(ToLuaInteger(ev.from)),
      "to" := Num(ToLuaInteger(ev.to))])
  }

  /**
   * luahs_match_event_handler: stores the match's record at key count+1,
   * leaves every other key alone, counts it, and returns 0 so that the
   * engine goes on scanning.
   */
  function HandleMatch(ctx: MatchContext, ev: MatchEvent): (out: (MatchContext, int))
    ensures out.1 == 0
    ensures out.0.nresults == ctx.nresults + 1
    ensures out.0.results.Keys == ctx.results.Keys + {ctx.nresults + 1}
    ensures out.0.results[ctx.nresults + 1] == MatchRecord(ev)
    ensures forall k | k in ctx.results && k != ctx.nresults + 1 :: out.0.results[k] == ctx.results[k]
  {
    var count := ctx.nresults + 1;
    (MatchContext(ctx.results[count := MatchRecord(ev)], count), 0)
  }

  /** The list `scan` promises: one record per reported match, in callback order. */
  function Collected(events: seq<MatchEvent>): Value {
    Table(seq(|events|, i requires 0 <= i < |events| => MatchRecord(events[i])), map[])
  }

  /** A further match extends the collected list by exactly its record, at the end. */
  lemma CollectedAppend(events: seq<MatchEvent>, ev: MatchEvent)
    ensures Collected(events + [ev]).items == Collected(events).items + [MatchRecord(ev)]
  {
  }

  /** The results table read as a Lua sequence 1..nresults. */
  function ResultsTable(ctx: MatchContext): Value
    requires ctx.nresults >= 0
    requires forall k | 1 <= k <= ctx.nresults :: k in ctx.results
  {
    Table(seq(ctx.nresults, i requires 0 <= i < ctx.nresults => ctx.results[i + 1]), map[])
  }

  /**
   * The engine's reports delivered to the handler one by one, starting from
   * an empty results table: the table read as a sequence is the collected
   * list of records.
   */
  method HandleAll(events: seq<MatchEvent>) returns (ctx: MatchContext)
    ensures ctx.nresults == |events|
    ensures forall k :: k in ctx.results <==> 1 <= k <= |events|
    ensures ResultsTable(ctx) == Collected(events)
  {
    ctx := MatchContext(map[], 0);
    ghost var expected := Collected(events).items;
    var i := 0;
    while i < |events|
      invariant 0 <= i <= |events|
      invariant ctx.nresults == i
      invariant forall k :: k in ctx.results <==> 1 <= k <= i
      invariant forall k | 1 <= k <= i :: ctx.results[k] == expected[k - 1]
    {
      ghost var before := ctx;
      assert expected[i] == MatchRecord(events[i]);
      ctx := HandleMatch(ctx, events[i]).0;
      assert ctx.results[i + 1] == expected[i];
      forall k | 1 <= k <= i
        ensures ctx.results[k] == expected[k - 1]
      {
        assert ctx.results[k] == before.results[k];
      }
      i := i + 1;
    }
    assert ResultsTable(ctx).items == expected;
  }

  /**
   * scan: the buffer must be a string (or a number, which Lua turns into
   * one); the engine reports its matches to the handler, which collects
   * them; a non-success status raises the engine error and returns nothing.
   */
  method Scan(data: Value, engine: string -> ScanOutcome) returns (r: Result<Value, Error>)
    ensures !(data.Str? || data.Num?) ==> r == Err(ArgExpected("string", TypeName(data)))
    ensures data.Str? || data.Num? ==>
      var outcome := engine(CheckString(data).value);
      && (r.Ok? <==> outcome.status == HS_SUCCESS)
      && (r.Ok? ==> r.value == Collected(outcome.events))
      && (r.Err? ==> r.error == EngineFailure(outcome.status))
  {
    var buffer :- CheckString(data);
    var outcome := engine(buffer);
    var ctx := HandleAll(outcome.events);
    if outcome.status != HS_SUCCESS {
      return Err(EngineFailure(outcome.status));
    }
    r := Ok(ResultsTable(ctx));
  }
}

=== FILE: numerals.dfy ===
/**
 * The integer conversions the binding performs implicitly in C (assigning a
 * 64-bit `lua_Integer` to an `int`, widening an `int` to `unsigned long long`,
 * pushing an `unsigned long long` as a `lua_Integer`) and the decimal text
 * Lua uses when it turns an integer into a string or a string into an integer.
 */
module Numerals {
  import opened Wrappers

  const TWO_31: int := 0x8000_0000
  const TWO_32: int := 0x1_0000_0000
  const TWO_63: int := 0x8000_0000_0000_0000
  const TWO_64: int := 0x1_0000_0000_0000_0000

  /**
   * Storing an integer into a C `int` or `unsigned int` keeps its low 32 bits
   * (two's complement); the result is the bit pattern of the stored value.
   */
  function Low32(n: int): bv32 {
    (n % TWO_32) as bv32
  }

  /**
   * The stored 32-bit pattern is determined by the integer's residue modulo
   * 2^32: an integer congruent to the unsigned value of a pattern stores
   * exactly that pattern, so a pattern stores as itself and adding 2^32
   * changes nothing.
   */
  lemma Low32Bits(n: int, b: bv32)
    ensures n % TWO_32 == b as int ==> Low32(n) == b
    ensures Low32(b as int) == b
    ensures Low32(n + TWO_32) == Low32(n)
  {
    var x := b as int;
    assert x as bv32 == b;
    Residue32(x);
    assert (n + TWO_32) % TWO_32 == n % TWO_32;
  }

  /** A value below 2^32 is its own residue modulo 2^32. */
  lemma Residue32(x: int)
    requires 0 <= x < TWO_32
    ensures x % TWO_32 == x
  {
  }

  /** The low 32 bits of a 64-bit value (a C conversion to `unsigned int`). */
  function Truncate(w: bv64): bv32 {
    (w & 0xFFFF_FFFF) as bv32
  }

  /**
   * Converting a C `int` to `unsigned long long` sign-extends it: the low 32
   * bits are kept and the upper 32 bits all copy bit 31.
   */
  function Widen(b: bv32): (w: bv64)
    ensures Truncate(w) == b
    ensures b < 0x8000_0000 ==> w < 0x8000_0000
    ensures b >= 0x8000_0000 ==> w >= 0xFFFF_FFFF_8000_0000
  {
    assert Truncate(b as bv64) == b;
    if b & 0x8000_0000 != 0 then (b as bv64) | 0xFFFF_FFFF_0000_0000 else b as bv64
  }

  /**
   * Pushing an `unsigned long long` with `lua_pushinteger` converts it to the
   * signed 64-bit `lua_Integer`: values from 2^63 upwards become negative.
   */
  function ToLuaInteger(u: bv64): (n: int)
    ensures -TWO_63 <= n < TWO_63
    ensures u as int < TWO_63 ==> n == u as int
    ensures u as int >= TWO_63 ==> n == u as int - TWO_64
  {
    var x := u as int;
    if x < TWO_63 then x else x - TWO_64
  }

  /**
   * The `lua_Integer` has the same 64 bits as the offset: it is congruent to
   * it modulo 2^64, and it is the only signed 64-bit value that is.
   */
  lemma ToLuaIntegerBits(u: bv64, m: int)
    ensures ToLuaInteger(u) % TWO_64 == u as int
    ensures -TWO_63 <= m < TWO_63 && m % TWO_64 == u as int ==> m == ToLuaInteger(u)
  {
    var x := u as int;
    assert ToLuaInteger(u) == if x < TWO_63 then x else x - TWO_64;
    SignedUnique(x, m);
  }

  /** The signed reading of `x`, below 2^64, is the one signed 64-bit value congruent to it. */
  lemma SignedUnique(x: int, m: int)
    requires 0 <= x < TWO_64
    ensures (if x < TWO_63 then x else x - TWO_64) % TWO_64 == x
    ensures -TWO_63 <= m < TWO_63 && m % TWO_64 == x ==> m == if x < TWO_63 then x else x - TWO_64
  {
    WrapAround(x);
    SignedResidue(m);
    if -TWO_63 <= m < TWO_63 && m % TWO_64 == x {
      if m >= 0 {
        assert m == x;
      } else {
        assert m + TWO_64 == x;
      }
    }
  }

  /** The residue modulo 2^64 of a signed 64-bit value. */
  lemma SignedResidue(m: int)
    ensures -TWO_63 <= m < 0 ==> m % TWO_64 == m + TWO_64
    ensures 0 <= m < TWO_63 ==> m % TWO_64 == m
  {
  }

  /** A value below 2^64 is its own residue modulo 2^64, before and after subtracting 2^64. */
  lemma WrapAround(x: int)
    requires 0 <= x < TWO_64
    ensures x % TWO_64 == x
    ensures (x - TWO_64) % TWO_64 == x
  {
  }

  predicate IsDigit(c: char) {
    '0' <= c <= '9'
  }

  predicate AllDigits(s: string) {
    forall i | 0 <= i < |s| :: IsDigit(s[i])
  }

  function DigitChar(d: nat): (c: char)
    requires d < 10
    ensures IsDigit(c)
  {
    ('0' as int + d) as char
  }

  /** Decimal digits of a natural number, without leading zeros. */
  function Digits(n: nat): (s: string)
    ensures |s| > 0 && AllDigits(s)
    ensures s[0] == '0' ==> n == 0
    decreases n
  {
    if n < 10 then [DigitChar(n)] else Digits(n / 10) + [DigitChar(n % 10)]
  }

  /** Lua's text for an integer (the `%d` / `LUA_INTEGER_FMT` conversion). */
  function Decimal(n: int): (s: string)
    ensures |s| > 0
    ensures n >= 0 ==> AllDigits(s)
    ensures n < 0 ==> s[0] == '-' && AllDigits(s[1..])
  {
    if n < 0 then "-" + Digits(-n) else Digits(n)
  }

  /** The number a string of decimal digits denotes. */
  function DigitsValue(s: string): nat
    requires AllDigits(s)
    decreases |s|
  {
    if |s| == 0 then 0 else DigitsValue(s[..|s| - 1]) * 10 + (s[|s| - 1] as int - '0' as int)
  }

  /**
   * Lua's conversion of a string to an integer, restricted to an optional
   * sign followed by decimal digits.
   */
  function ParseInteger(s: string): Option<int> {
    if |s| > 1 && (s[0] == '-' || s[0] == '+') && AllDigits(s[1..]) then
      var magnitude: int := DigitsValue(s[1..]);
      Some(if s[0] == '-' then -magnitude else magnitude)
    else if |s| > 0 && AllDigits(s) then
      Some(DigitsValue(s))
    else
      None
  }

  lemma {:induction false} DigitsRoundTrip(n: nat)
    ensures DigitsValue(Digits(n)) == n
    decreases n
  {
    if n >= 10 {
      var s := Digits(n);
      assert s[..|s| - 1] == Digits(n / 10);
      DigitsRoundTrip(n / 10);
    }
  }

  /** Reading back the text Lua writes for an integer gives the integer. */
  lemma DecimalRoundTrip(n: int)
    ensures ParseInteger(Decimal(n)) == Some(n)
  {
    if n < 0 {
      var s := Decimal(n);
      assert s[1..] == Digits(-n);
      DigitsRoundTrip(-n);
      assert |s| > 1 && s[0] == '-' && AllDigits(s[1..]);
    } else {
      var s := Decimal(n);
      assert s == Digits(n);
      DigitsRoundTrip(n);
      assert s[0] != '-' && s[0] != '+';
    }
  }

  /** Length of the longest all-digit prefix of `s`. */
  function LeadingDigits(s: string): (k: nat)
    ensures k <= |s|
    ensures AllDigits(s[..k])
    ensures k == |s| || !IsDigit(s[k])
    decreases |s|
  {
    if |s| == 0 || !IsDigit(s[0]) then 0
    else
      var k := 1 + LeadingDigits(s[1..]);
      assert s[..k] == [s[0]] + s[1..][..k - 1];
      k
  }

  lemma {:induction false} LeadingDigitsOfConcat(d: string, rest: string)
    requires AllDigits(d)
    requires |rest| == 0 || !IsDigit(rest[0])
    ensures LeadingDigits(d + rest) == |d|
    decreases |d|
  {
    if |d| > 0 {
      assert (d + rest)[1..] == d[1..] + rest;
      LeadingDigitsOfConcat(d[1..], rest);
    }
  }
}

=== FILE: wrappers.dfy ===
/** Option and Result, the failure-compatible wrappers used throughout the model. */
module Wrappers {

  /** A value that may be absent; stands in for a C pointer that may be NULL. */
  datatype Option<+T> = None | Some(value: T) {

    /** The wrapped value, or `default` when absent. */
    function GetOr(default: T): T {
      match this
      case Some(v) => v
      case None => default
    }
  }

  /** Either a value or the error a Lua call would raise instead of returning. */
  datatype Result<+T, +E> = Ok(value: T) | Err(error: E) {

    predicate IsFailure() {
      Err?
    }

    function PropagateFailure<U>(): Result<U, E>
      requires Err?
    {
      Err(error)
    }

    function Extract(): T
      requires Ok?
    {
      value
    }
  }
}
